=== FILE: README.md ===
# Room session model

A Dafny model of the client-side room session of colyseus.js (`Room` in
`src/Room.ts`): the state machine that receives a snapshot of the room's
state and then a stream of binary patches against it, tracks the local and
remote clocks and the inter-patch ping, raises the Join, Update, Data, Error
and Leave lifecycle events, and closes or writes to its transport on the
application's behalf.

The model is functional. `Room.RoomState` is an immutable record holding the
room's fields (`id`, whether a transport is bound, the exposed state, the
serialized baseline, the remote clock's two fields, an abstract local clock,
`ping`, `lastPatchTime`, the subscribers of the five signals and of the state
container) plus an output log of everything the room does to the outside
world: events dispatched, `close` and `send` on the transport, warnings, and
exceptions that escape to the host. There is one pure step function per input:
`OnOpen`, `OnClose`, `OnMessage(frame, now)`, `Leave`, `Send(data, isOpen)`,
with `SetState` and `Patch` for the two state-changing message kinds.
`Date.now()` and the transport's `readyState` are parameters.

The codec (msgpack), the delta patcher (fossil-delta) and the protocol's tags
are fields of an `Env` value. Nothing is assumed about them globally: the
lemmas that need the codec round trip take `Lawful(env.codec)` as a
hypothesis, and the lemmas that need distinct tags take `Distinct(env.protocol)`.

JavaScript semantics the room relies on are kept:
- `message[i]` reads past the end of a decoded message as `undefined`
  (`Values.Index`), so a short frame hands `undefined` to `setState` or to an
  event. Reading `message[0]` of a message that decoded to `null` throws, so
  such a frame takes no branch at all.
- A decoded map is a JavaScript object: each key once, array-index keys first
  in ascending order, then the others in insertion order (`Values.Wire`). The
  codec round trip is assumed only on such values, the ones the program can
  hand to the encoder.
- `remoteCurrentTime && remoteElapsedTime` is a truthiness test: a time of 0,
  `null` or a missing element leaves the remote clock alone.
- `if (this.id)` is a truthiness test: an id of `null` or 0 skips the close.
- `if (this.lastPatchTime)` is a truthiness test too, so a previous patch
  stamped at time 0 does not produce a ping.
- The session has no explicit Unbound/Joining/Joined/Left state field; the
  model keeps only what the code keeps: whether a transport was bound and
  whether an id is set.
- Exceptions are not swallowed. A frame the codec cannot decode, a frame that
  decodes to `null`, a patch the
  patcher rejects, a patched baseline the codec cannot decode, and `leave` or
  `send` before `connect` (the transport is `undefined`) each append a `Raise`
  output and stop the step there. Whatever the step had already changed
  stays changed. A rejected patch still updates `ping`, `lastPatchTime` and the
  clock tick. An undecodable patched baseline still replaces the baseline.
- A ROOM_STATE frame with no state element hands `undefined` to `setState`.
  The state container's `set` is taken to accept it without throwing (see
  "## Left out"); under that assumption the encoding of `undefined` decodes to
  something else, so after it the baseline no longer decodes to the exposed
  state (`RoomProperties.ShortSnapshotUnsynced`). The run lemma
  `Session.RunKeepsSynced` therefore assumes well-formed frames.
- The teardown is subscribed to the Leave signal once, in the constructor, and
  its own `removeAll` unsubscribes it. Only the first close signal after
  construction tears the listeners down (`Session.FirstCloseEmptiesListeners`).
  A later close, after the application subscribed again, leaves those
  subscribers in place.

Modules: `Wrappers` (Option), `Values` (decoded values, indexing, truthiness),
`Collaborators` (codec, patcher, protocol tags and their assumptions), `Room`
(the record and the step functions), `RoomProperties` (single-step
properties), `Session` (runs over input sequences and their properties).

## Model

| member | source | states |
|---|---|---|
| Room.NewRoom | src/Room.ts:12-38 | a new room has no id, no transport, an empty state object, no baseline, no ping, and only the teardown subscribed, to the Leave signal |
| Room.Subscribe | src/Room.ts:21-26 | subscribing adds the callback to the chosen signal and changes no other signal or field |
| Room.Connect | src/Room.ts:40-45 | binding a transport changes nothing but the binding; the callbacks reach the room only afterwards (see Session.Step) |
| Room.RemoveAllListeners | src/Room.ts:125-132 | all five signals and the state container are left without subscribers, nothing else changes |
| Room.OnOpen | src/Room.ts:43 | the open callback emits exactly one Join event and changes nothing else |
| Room.OnClose | src/Room.ts:37-44 | the close callback emits exactly one Leave event; it empties every subscriber set when the teardown is subscribed to Leave and leaves them alone otherwise |
| Room.IdValue | src/Room.ts:119 | an unset id goes on the wire as null, a set id as its number |
| Room.Classify | src/Room.ts:49-69 | a known kind is chosen only when `message[0]` equals its tag, and the unknown kind only when `message[0]` equals none of the five tags |
| Room.Dispatch | src/Room.ts:47-70 | a message that decoded to null lets a TypeError escape and changes nothing else; a message of unknown kind leaves the room exactly as it was |
| Room.OnMessage | src/Room.ts:47-48 | an undecodable frame changes nothing and lets a decode exception escape; a decodable one is dispatched |
| Room.SetState | src/Room.ts:72-85 | the state becomes the snapshot and the baseline its encoding, which decodes back to it under the codec round trip; the remote clock takes the reported times exactly when both are truthy and is untouched otherwise; the local clock restarts; one Update event carries the snapshot; no other field changes |
| Room.Patch | src/Room.ts:87-108 | the arrival time is recorded; ping becomes the interval since the previous arrival exactly when that arrival time is truthy and is untouched otherwise; the clock ticks once; the patched bytes become the baseline and their decoding the state, announced by one Update event; a throwing patcher or decoder leaves state (and, for the patcher, baseline) as they were; on success the baseline decodes to the state; remote clock, id and subscribers never change |
| Room.Leave | src/Room.ts:110-115 | a truthy id closes the transport once and nothing else changes; a null or 0 id changes nothing at all |
| Room.Send | src/Room.ts:117-123 | an open transport receives exactly `[ROOM_DATA, id, data]`; a closed one receives nothing and one warning is printed; no room field changes |
| RoomProperties.ClassifyMatchesTag | src/Room.ts:49-69 | with distinct tags, the dispatch picks a kind if and only if `message[0]` is that kind's tag |
| RoomProperties.NullMessageThrows | src/Room.ts:48-49 | a frame that decodes to null lets a TypeError escape from reading its tag and changes nothing else |
| RoomProperties.UnknownFrameIsIgnored | src/Room.ts:47-70 | a frame that decodes to a non-null message whose tag is none of the five leaves every field unchanged and emits nothing |
| RoomProperties.JoinErrorFrameOnlyEmitsError | src/Room.ts:51-52 | a JOIN_ERROR frame emits one Error event carrying `message[2]` and touches no state, baseline, clock or ping |
| RoomProperties.DataFrameOnlyEmitsData | src/Room.ts:64-65 | a ROOM_DATA frame emits one Data event carrying `message[2]` and touches no state, baseline, clock or ping |
| RoomProperties.StateFrameIsSnapshot | src/Room.ts:54-59 | a ROOM_STATE frame is snapshot ingestion of `message[2]` with remote times `message[3]` and `message[4]` |
| RoomProperties.PatchFrameIsPatch | src/Room.ts:61-62 | a ROOM_STATE_PATCH frame is patch application of `message[2]` at the arrival time |
| RoomProperties.LeaveFrameIsLeave | src/Room.ts:67-68 | a LEAVE_ROOM frame behaves exactly like the application calling leave |
| RoomProperties.SnapshotBaselineRoundTrips | src/Room.ts:72-85 | after a snapshot the baseline decodes to the snapshot, the exposed state is the snapshot, and exactly one Update event carrying it is emitted |
| RoomProperties.SnapshotFrameSyncs | src/Room.ts:54-74 | a snapshot frame that carries a state element leaves the baseline decoding to the exposed state |
| RoomProperties.ShortSnapshotUnsynced | src/Room.ts:54-74 | a snapshot frame without a state element exposes `undefined` while the baseline, its encoding, cannot decode back to it; this is why the synchronisation lemmas assume well-formed frames |
| RoomProperties.SnapshotIsIdempotent | src/Room.ts:72-85 | ingesting the same snapshot twice leaves the same state, baseline, remote clock and local clock as once; only a second Update event is added |
| RoomProperties.RemoteClockNeedsBothTimes | src/Room.ts:77-80 | the remote clock changes only when both reported times are truthy; a 0 in either keeps both fields |
| RoomProperties.FirstPatchLeavesPingUnset | src/Room.ts:91-97 | the first patch a new room receives records its time and leaves ping unset |
| RoomProperties.SecondPatchMeasuresInterval | src/Room.ts:91-97 | a second patch sets ping to the interval since the first, non-negative when time does not run backwards, unless the first was stamped at 0 |
| RoomProperties.PatchInstallsDecodedBaseline | src/Room.ts:99-107 | a patch that applies and decodes installs the patched bytes as baseline and their decoding as state, announces it, and keeps remote clock and id |
| RoomProperties.LeaveClosesIffIdSet | src/Room.ts:110-115 | leave closes the transport if and only if the id is truthy, exactly once, and otherwise changes nothing |
| RoomProperties.SendWritesIffOpen | src/Room.ts:117-123 | send writes a frame if and only if the transport is open, and warns once if and only if it is not |
| RoomProperties.CloseTearsDownListeners | src/Room.ts:125-132 | while the teardown is subscribed, a close signal empties all six subscriber sets and raises exactly one Leave event |
| Session.StepAppendsOneOutput | src/Room.ts:40-123 | every input appends at most one output, keeps the transport bound, and adds a Leave event exactly when it is a close signal on a bound transport |
| Session.MessageIsQuiet | src/Room.ts:47-70 | an inbound frame appends at most one output and never a Leave event: a LEAVE_ROOM frame only asks the transport to close |
| Session.RunExtendsLog | src/Room.ts:40-123 | along any run the output log only grows and a bound transport stays bound |
| Session.LeaveEventsCountCloseSignals | src/Room.ts:40-45 | once bound, the number of Leave events equals the number of close signals, whether or not leave was called first |
| Session.TeardownStaysSubscribed | src/Room.ts:34-38 | until a close signal arrives, no input unsubscribes the teardown from the Leave signal |
| Session.FirstCloseEmptiesListeners | src/Room.ts:34-44 | from construction, the first close signal on a bound transport empties all five signals and the state container |
| Session.StepKeepsSynced | src/Room.ts:47-108 | an input that lets no exception escape keeps the baseline decoding to the exposed state, whatever escaped earlier |
| Session.RunKeepsSynced | src/Room.ts:47-108 | a run of well-formed frames and calls that lets no exception escape during the run keeps the baseline decoding to the exposed state, whatever escaped before it |
| Session.PatchesKeepRemoteClockAndId | src/Room.ts:87-108 | no number of patches changes the remote clock, the id, the transport binding or the subscribers |
| Session.PatchAlongChain | src/Room.ts:99-107 | a patch computed against the stored encoding of one snapshot installs the next snapshot as state and baseline and announces it |
| Session.PatchChainReachesSnapshot | src/Room.ts:99-107 | patches generated against successive snapshots end with the last snapshot as state and its encoding as baseline, with one Update per patch carrying each snapshot in order |
| Session.PatchChainMatchesDirectSnapshot | src/Room.ts:72-107 | following the patches gives the same state and baseline as ingesting the last snapshot directly |
| Session.ApplyPatchesSnoc | src/Room.ts:87-108 | applying one more patch after any run of patches is patching that run's result |
| Session.PingIsLastInterval | src/Room.ts:91-97 | after any run of patches ending in two arrivals, ping is the interval between those two unless the first was stamped at 0, and the last time is kept for the next |
| Values.Index | src/Room.ts:49-57 | `message[i]` on a value that has properties: the i-th array element or `undefined` past the end, the property named by the decimal spelling of i on a map, `undefined` on a boolean or number; on a codec value the result is a codec value or `undefined`, and on a codec map it is the one entry with that key |

## Left out

- msgpack encoding and the fossil-delta algorithm: foreign libraries, modelled as the function-valued fields of `Env`; the only assumption is the round trip `Lawful`, taken as a hypothesis where needed.
- The `Protocol` constants: `src/Protocol.ts` is not part of this model; the five tags are parameters, assumed distinct where a lemma needs it.
- Tag comparison: the source compares `message[0]` with `==`, which also matches a string, boolean or one-element array that JavaScript coerces to the tag number; the model dispatches only on numeric tags.
- Numbers are modelled as integers: JavaScript floating point, NaN and its falsiness are not modelled.
- String indexing in `Values.Index` works on Unicode scalar values, not on UTF-16 code units.
- `clock.js` internals: `clock.js` is not part of this model. The local clock is reduced to a started flag and a tick count, and it starts out running because the library's constructor starts it. The initial remote clock reading is a parameter of `NewRoom`.
- Application callbacks: a subscriber the application adds (`Session.Input.AddListener`) is an opaque handle whose execution has no modelled effect on the room. That includes the application subscribing the room's public `removeAllListeners` to another signal, which would empty the subscriber sets when that signal fires.
- `Signal` dispatch mechanics: subscriber order, re-entrancy, duplicate-add errors, removal by the application, and exceptions thrown by subscribers; a dispatch is one `Emit` entry in the log.
- `DeltaContainer`'s per-field change detection and the notifications it sends to its own listeners. Its `set` (src/Room.ts:73 and src/Room.ts:105) is assumed to accept every value, `undefined` and `null` included, and never to throw; a container that refused a value would leave the old state and baseline in place and raise instead.
- Object key order: maps are sequences laid out in JavaScript's enumeration order, and values that break that layout (a repeated key, array-index keys out of order) are outside the codec assumption `Lawful`; `Values.Index` still reads such a sequence as a decoder that assigns in wire order would, the later entry winning.
- The transport: `close()` triggering the close callback later, `readyState` (a boolean parameter), rebinding with a second `connect`, and `Connection`'s own encoding of outbound frames.
- `console.warn`'s text: the warning is a log entry carrying the id.
- The room's `name`: stored and never read by the core.
- Assigning the id: `src/Client.ts` writes `room.id` and is not part of this model; the id is a field of the record that no step changes.

=== FILE: collaborators.dfy ===
/** The session's external collaborators, passed in as values: the message
    codec, the binary delta patcher and the protocol's message tags. Their
    algorithms are not modelled; what the session relies on is stated as
    predicates that its lemmas take as hypotheses. */
module Collaborators {
  import opened Wrappers
  import opened Values

  /** The message codec. `decode` yields None where the decoder throws. */
  datatype Codec = Codec(encode: Value -> Bytes, decode: Bytes -> Option<Value>)

  /** The codec assumption: decoding an encoded value gives it back, and
      everything the decoder produces is a codec value. The round trip is only
      assumed on `Wire` values: `undefined` has no encoding of its own, and a
      map that repeats a key or lists its keys out of JavaScript's order is no
      object the program could hand to the encoder. */
  ghost predicate Lawful(c: Codec) {
    && (forall v :: Wire(v) ==> c.decode(c.encode(v)) == Some(v))
    && (forall b :: c.decode(b).Some? ==> Wire(c.decode(b).value))
  }

  /** The binary delta patcher: applies a patch to the stored baseline, which
      is `undefined` before the first snapshot. None where it throws. */
  datatype Delta = Delta(apply: (Option<Bytes>, Value) -> Option<Bytes>)

  /** The integer tags of the five inbound message kinds the room handles. */
  datatype Protocol = Protocol(joinError: int, roomState: int, roomStatePatch: int, roomData: int, leaveRoom: int)

  /** The protocol gives every message kind its own tag. */
  predicate Distinct(p: Protocol) {
    && p.joinError != p.roomState && p.joinError != p.roomStatePatch
    && p.joinError != p.roomData && p.joinError != p.leaveRoom
    && p.roomState != p.roomStatePatch && p.roomState != p.roomData && p.roomState != p.leaveRoom
    && p.roomStatePatch != p.roomData && p.roomStatePatch != p.leaveRoom
    && p.roomData != p.leaveRoom
  }

  datatype Env = Env(codec: Codec, delta: Delta, protocol: Protocol)
}

=== FILE: room.dfy ===
/** The client-side room session: its state record and one pure step
    function per input it reacts to (transport callbacks, inbound frames and
    the application's leave and send calls). Everything the room emits,
    both lifecycle events and calls on the transport, is appended to the
    record's output log. */
module Room {
  import opened Wrappers
  import opened Values
  import opened Collaborators

  /** The local clock, kept abstract: whether it has been started and how many
      ticks it has taken since the last start. */
  datatype LocalClock = LocalClock(running: bool, ticks: nat)

  /** The remote clock's two fields, which only snapshots ever write. */
  datatype RemoteClock = RemoteClock(currentTime: Value, elapsedTime: Value)

  /** A subscriber: the room's own teardown, added at construction, or an
      application callback. */
  datatype Listener = Teardown | App(handle: nat)

  datatype Channel = JoinChannel | UpdateChannel | DataChannel | ErrorChannel | LeaveChannel | StateChannel

  /** The subscribers of the five lifecycle signals and of the state
      container's change notifications. */
  datatype Listeners = Listeners(
    onJoin: set<Listener>,
    onUpdate: set<Listener>,
    onData: set<Listener>,
    onError: set<Listener>,
    onLeave: set<Listener>,
    container: set<Listener>)
  {
    predicate Empty() {
      onJoin == {} && onUpdate == {} && onData == {} && onError == {} && onLeave == {} && container == {}
    }

    function Of(ch: Channel): set<Listener> {
      match ch
      case JoinChannel => onJoin
      case UpdateChannel => onUpdate
      case DataChannel => onData
      case ErrorChannel => onError
      case LeaveChannel => onLeave
      case StateChannel => container
    }
  }

  const NoListeners := Listeners({}, {}, {}, {}, {}, {})

  datatype Event = JoinEvent | UpdateEvent(state: Value) | DataEvent(payload: Value) | ErrorEvent(error: Value) | LeaveEvent

  /** Why an exception escaped the room to its host. */
  datatype Fault =
    | UndecodableFrame        // the codec threw on an inbound frame
    | UnreadableMessage       // the frame decoded to null, so reading message[0] threw
    | RejectedPatch           // the delta patcher threw
    | UndecodablePatchResult  // the codec threw on the patched baseline
    | NoConnection            // leave or send before any transport was bound

  /** What the room does to the outside world: dispatch an event, close or
      write to the transport, print a warning, or let an exception escape. */
  datatype Output = Emit(event: Event) | Close | SendFrame(frame: Value) | Warn(id: Option<int>) | Raise(fault: Fault)

  datatype RoomState = RoomState(
    name: string,
    id: Option<int>,
    connected: bool,
    state: Value,
    baseline: Option<Bytes>,
    remoteClock: RemoteClock,
    clock: LocalClock,
    ping: Option<int>,
    lastPatchTime: Option<int>,
    listeners: Listeners,
    log: seq<Output>)

  /** `this.id` is truthy: the server assigned an id and it is not 0. */
  predicate IdIsSet(id: Option<int>) {
    id.Some? && id.value != 0
  }

  /** `this.lastPatchTime` is truthy: a patch arrived before, at a time other than 0. */
  predicate TimeIsSet(t: Option<int>) {
    t.Some? && t.value != 0
  }

  /** The id as it is written into an outbound frame (`null` while unset). */
  function IdValue(id: Option<int>): (v: Value)
    ensures id.None? <==> v == Nil
    ensures id.Some? ==> v == Num(id.value)
  {
    match id
    case None => Nil
    case Some(k) => Num(k)
  }

  /** The previously stored baseline decodes to exactly the exposed state. */
  ghost predicate Synced(env: Env, r: RoomState) {
    r.baseline.Some? && env.codec.decode(r.baseline.value) == Some(r.state)
  }

  function Announce(r: RoomState, out: Output): RoomState {
    r.(log := r.log + [out])
  }

  /** A fresh room: no id, no transport, an empty state object, no baseline,
      a local clock started by its constructor, and the teardown already
      subscribed to the Leave signal. The remote clock's initial reading comes
      from the clock library and is a parameter. */
  function NewRoom(name: string, remote: RemoteClock): (r: RoomState)
    ensures r.name == name && r.id == None && !r.connected
    ensures r.state == Obj([]) && r.baseline == None
    ensures r.ping == None && r.lastPatchTime == None
    ensures r.clock == LocalClock(true, 0)
    ensures r.listeners.onLeave == {Teardown}
    ensures forall ch :: ch != LeaveChannel ==> r.listeners.Of(ch) == {}
    ensures r.log == []
  {
    RoomState(name, None, false, Obj([]), None, remote, LocalClock(true, 0), None, None,
              NoListeners.(onLeave := {Teardown}), [])
  }

  /** The application subscribes a callback to one of the room's signals. */
  function Subscribe(r: RoomState, ch: Channel, l: Listener): (r': RoomState)
    ensures r'.listeners.Of(ch) == r.listeners.Of(ch) + {l}
    ensures forall other :: other != ch ==> r'.listeners.Of(other) == r.listeners.Of(other)
    ensures r' == r.(listeners := r'.listeners)
  {
    var ls := r.listeners;
    var ls' := match ch
      case JoinChannel => ls.(onJoin := ls.onJoin + {l})
      case UpdateChannel => ls.(onUpdate := ls.onUpdate + {l})
      case DataChannel => ls.(onData := ls.onData + {l})
      case ErrorChannel => ls.(onError := ls.onError + {l})
      case LeaveChannel => ls.(onLeave := ls.onLeave + {l})
      case StateChannel => ls.(container := ls.container + {l});
    r.(listeners := ls')
  }

  /** Binding a transport; from here on its open, close and message callbacks reach the room. */
  function Connect(r: RoomState): (r': RoomState)
    ensures r'.connected
    ensures r' == r.(connected := true)
  {
    r.(connected := true)
  }

  /** Every signal and the state container lose all their subscribers. */
  function RemoveAllListeners(r: RoomState): (r': RoomState)
    ensures r'.listeners.Empty()
    ensures r' == r.(listeners := r'.listeners)
  {
    r.(listeners := NoListeners)
  }

  /** The transport's open callback: a Join event and nothing else. */
  function OnOpen(r: RoomState): (r': RoomState)
    ensures r' == r.(log := r.log + [Emit(JoinEvent)])
  {
    Announce(r, Emit(JoinEvent))
  }

  /** The transport's close callback: a Leave event, whose dispatch runs the
      teardown when the teardown is still subscribed to it. */
  function OnClose(r: RoomState): (r': RoomState)
    ensures r'.log == r.log + [Emit(LeaveEvent)]
    ensures Teardown in r.listeners.onLeave ==> r'.listeners.Empty()
    ensures Teardown !in r.listeners.onLeave ==> r'.listeners == r.listeners
    ensures r' == r.(log := r'.log, listeners := r'.listeners)
  {
    var r1 := Announce(r, Emit(LeaveEvent));
    if Teardown in r.listeners.onLeave then RemoveAllListeners(r1) else r1
  }

  /** Snapshot ingestion: the state is replaced, its encoding becomes the
      baseline, the remote clock is overwritten only when both reported times
      are truthy, the local clock restarts and an Update event carries the
      new state. */
  function SetState(env: Env, r: RoomState, s: Value, currentTime: Value, elapsedTime: Value): (r': RoomState)
    ensures r'.state == s
    ensures r'.baseline == Some(env.codec.encode(s))
    ensures Lawful(env.codec) && Wire(s) ==> Synced(env, r')
    ensures Truthy(currentTime) && Truthy(elapsedTime) ==> r'.remoteClock == RemoteClock(currentTime, elapsedTime)
    ensures !(Truthy(currentTime) && Truthy(elapsedTime)) ==> r'.remoteClock == r.remoteClock
    ensures r'.clock == LocalClock(true, 0)
    ensures r'.log == r.log + [Emit(UpdateEvent(s))]
    ensures r' == r.(state := s, baseline := r'.baseline, remoteClock := r'.remoteClock, clock := r'.clock, log := r'.log)
  {
    var remote := if Truthy(currentTime) && Truthy(elapsedTime) then RemoteClock(currentTime, elapsedTime) else r.remoteClock;
    r.(state := s, baseline := Some(env.codec.encode(s)), remoteClock := remote,
       clock := LocalClock(true, 0), log := r.log + [Emit(UpdateEvent(s))])
  }

  /** Patch application at wall-clock time `now`. The ping bookkeeping and the
      clock tick happen before the patcher runs, so they survive a patch
      that throws; a patched baseline is stored before it is decoded, so it
      survives a decode that throws. */
  function Patch(env: Env, r: RoomState, delta: Value, now: int): (r': RoomState)
    ensures r'.lastPatchTime == Some(now)
    ensures TimeIsSet(r.lastPatchTime) ==> r'.ping == Some(now - r.lastPatchTime.value)
    ensures !TimeIsSet(r.lastPatchTime) ==> r'.ping == r.ping
    ensures r'.clock == LocalClock(r.clock.running, r.clock.ticks + 1)
    ensures env.delta.apply(r.baseline, delta).None? ==>
              r'.baseline == r.baseline && r'.state == r.state && r'.log == r.log + [Raise(RejectedPatch)]
    ensures env.delta.apply(r.baseline, delta).Some? ==> r'.baseline == env.delta.apply(r.baseline, delta)
    ensures env.delta.apply(r.baseline, delta).Some? && env.codec.decode(r'.baseline.value).None? ==>
              r'.state == r.state && r'.log == r.log + [Raise(UndecodablePatchResult)]
    ensures env.delta.apply(r.baseline, delta).Some? && env.codec.decode(r'.baseline.value).Some? ==>
              r'.state == env.codec.decode(r'.baseline.value).value && r'.log == r.log + [Emit(UpdateEvent(r'.state))]
    ensures Raise(RejectedPatch) !in r'.log[|r.log|..] && Raise(UndecodablePatchResult) !in r'.log[|r.log|..] ==> Synced(env, r')
    ensures r' == r.(ping := r'.ping, lastPatchTime := r'.lastPatchTime, clock := r'.clock,
                     baseline := r'.baseline, state := r'.state, log := r'.log)
  {
    var ping := if TimeIsSet(r.lastPatchTime) then Some(now - r.lastPatchTime.value) else r.ping;
    var r1 := r.(ping := ping, lastPatchTime := Some(now), clock := r.clock.(ticks := r.clock.ticks + 1));
    match env.delta.apply(r1.baseline, delta)
    case None => Announce(r1, Raise(RejectedPatch))
    case Some(bytes) =>
      var r2 := r1.(baseline := Some(bytes));
      match env.codec.decode(bytes)
      case None => Announce(r2, Raise(UndecodablePatchResult))
      case Some(v) => Announce(r2.(state := v), Emit(UpdateEvent(v)))
  }

  /** Leaving closes the transport only when the room has a truthy id;
      without an id it does nothing at all. */
  function Leave(r: RoomState): (r': RoomState)
    ensures IdIsSet(r.id) && r.connected ==> r' == r.(log := r.log + [Close])
    ensures IdIsSet(r.id) && !r.connected ==> r' == r.(log := r.log + [Raise(NoConnection)])
    ensures !IdIsSet(r.id) ==> r' == r
  {
    if !IdIsSet(r.id) then r
    else if r.connected then Announce(r, Close)
    else Announce(r, Raise(NoConnection))
  }

  /** Sending application data: the frame `[ROOM_DATA, id, data]` when the
      transport is open, a warning otherwise. */
  function Send(env: Env, r: RoomState, data: Value, isOpen: bool): (r': RoomState)
    ensures r.connected && isOpen ==>
              r'.log == r.log + [SendFrame(Arr([Num(env.protocol.roomData), IdValue(r.id), data]))]
    ensures r.connected && !isOpen ==> r'.log == r.log + [Warn(r.id)]
    ensures !r.connected ==> r'.log == r.log + [Raise(NoConnection)]
    ensures r' == r.(log := r'.log)
  {
    if !r.connected then Announce(r, Raise(NoConnection))
    else if isOpen then Announce(r, SendFrame(Arr([Num(env.protocol.roomData), IdValue(r.id), data])))
    else Announce(r, Warn(r.id))
  }

  /** The kind of an inbound message, as the dispatch decides it. */
  datatype Kind = JoinErrorKind | StateKind | PatchKind | DataKind | LeaveKind | UnknownKind

  /** The protocol tag that announces each kind; unknown messages have none. */
  function TagOf(p: Protocol, k: Kind): Option<int> {
    match k
    case JoinErrorKind => Some(p.joinError)
    case StateKind => Some(p.roomState)
    case PatchKind => Some(p.roomStatePatch)
    case DataKind => Some(p.roomData)
    case LeaveKind => Some(p.leaveRoom)
    case UnknownKind => None
  }

  /** The dispatch's test chain on `message[0]`, in source order. */
  function Classify(p: Protocol, code: Value): (k: Kind)
    ensures k != UnknownKind ==> TagOf(p, k).Some? && code == Num(TagOf(p, k).value)
    ensures k == UnknownKind ==> forall other :: TagOf(p, other).Some? ==> code != Num(TagOf(p, other).value)
  {
    if code == Num(p.joinError) then JoinErrorKind
    else if code == Num(p.roomState) then StateKind
    else if code == Num(p.roomStatePatch) then PatchKind
    else if code == Num(p.roomData) then DataKind
    else if code == Num(p.leaveRoom) then LeaveKind
    else UnknownKind
  }

  /** Dispatch of a decoded message on its tag. Reading the tag of a message
      that decoded to null throws before any branch is taken. */
  function Dispatch(env: Env, r: RoomState, message: Value, now: int): (r': RoomState)
    ensures !HasProperties(message) ==> r' == r.(log := r.log + [Raise(UnreadableMessage)])
    ensures HasProperties(message) && Classify(env.protocol, Index(message, 0)) == UnknownKind ==> r' == r
  {
    if !HasProperties(message) then Announce(r, Raise(UnreadableMessage))
    else match Classify(env.protocol, Index(message, 0))
    case JoinErrorKind => Announce(r, Emit(ErrorEvent(Index(message, 2))))
    case StateKind => SetState(env, r, Index(message, 2), Index(message, 3), Index(message, 4))
    case PatchKind => Patch(env, r, Index(message, 2), now)
    case DataKind => Announce(r, Emit(DataEvent(Index(message, 2))))
    case LeaveKind => Leave(r)
    case UnknownKind => r
  }

  /** The transport's message callback: decode the frame, then dispatch. */
  function OnMessage(env: Env, r: RoomState, frame: Bytes, now: int): (r': RoomState)
    ensures env.codec.decode(frame).None? ==> r' == r.(log := r.log + [Raise(UndecodableFrame)])
    ensures env.codec.decode(frame).Some? ==> r' == Dispatch(env, r, env.codec.decode(frame).value, now)
  {
    match env.codec.decode(frame)
    case None => Announce(r, Raise(UndecodableFrame))
    case Some(message) => Dispatch(env, r, message, now)
  }
}

=== FILE: room_properties.dfy ===
/** Properties of single room steps: which branch an inbound frame takes,
    what snapshots and patches leave behind, and when the transport is
    actually closed or written to. */
module RoomProperties {
  import opened Wrappers
  import opened Values
  import opened Collaborators
  import opened Room

  /** With distinct tags, the test chain picks a known kind exactly when the
      message's tag is that kind's tag, whatever the order of the tests. */
  lemma ClassifyMatchesTag(p: Protocol, code: Value, k: Kind)
    requires Distinct(p)
    requires k != UnknownKind
    ensures Classify(p, code) == k <==> code == Num(TagOf(p, k).value)
  {
  }

  /** A frame that decodes to null lets a TypeError escape and changes
      nothing else: its tag cannot even be read. */
  lemma NullMessageThrows(env: Env, r: RoomState, frame: Bytes, now: int)
    requires env.codec.decode(frame) == Some(Nil)
    ensures OnMessage(env, r, frame, now) == r.(log := r.log + [Raise(UnreadableMessage)])
  {
  }

  /** A frame whose tag is none of the five known tags changes nothing and
      emits nothing. */
  lemma UnknownFrameIsIgnored(env: Env, r: RoomState, frame: Bytes, now: int)
    requires env.codec.decode(frame).Some? && HasProperties(env.codec.decode(frame).value)
    requires forall k :: TagOf(env.protocol, k).Some? ==> Index(env.codec.decode(frame).value, 0) != Num(TagOf(env.protocol, k).value)
    ensures OnMessage(env, r, frame, now) == r
  {
  }

  /** A JOIN_ERROR frame emits exactly one Error event carrying `message[2]`
      and leaves every other field alone. */
  lemma JoinErrorFrameOnlyEmitsError(env: Env, r: RoomState, frame: Bytes, now: int)
    requires env.codec.decode(frame).Some? && HasProperties(env.codec.decode(frame).value)
    requires Index(env.codec.decode(frame).value, 0) == Num(env.protocol.joinError)
    ensures OnMessage(env, r, frame, now) == r.(log := r.log + [Emit(ErrorEvent(Index(env.codec.decode(frame).value, 2)))])
  {
  }

  /** A ROOM_DATA frame emits exactly one Data event carrying `message[2]`
      and leaves every other field alone. */
  lemma DataFrameOnlyEmitsData(env: Env, r: RoomState, frame: Bytes, now: int)
    requires Distinct(env.protocol)
    requires env.codec.decode(frame).Some? && HasProperties(env.codec.decode(frame).value)
    requires Index(env.codec.decode(frame).value, 0) == Num(env.protocol.roomData)
    ensures OnMessage(env, r, frame, now) == r.(log := r.log + [Emit(DataEvent(Index(env.codec.decode(frame).value, 2)))])
  {
  }

  /** A ROOM_STATE frame ingests `message[2]` as a snapshot with the remote
      times `message[3]` and `message[4]`. */
  lemma StateFrameIsSnapshot(env: Env, r: RoomState, frame: Bytes, now: int)
    requires Distinct(env.protocol)
    requires env.codec.decode(frame).Some? && HasProperties(env.codec.decode(frame).value)
    requires Index(env.codec.decode(frame).value, 0) == Num(env.protocol.roomState)
    ensures var m := env.codec.decode(frame).value;
            OnMessage(env, r, frame, now) == SetState(env, r, Index(m, 2), Index(m, 3), Index(m, 4))
  {
  }

  /** A ROOM_STATE_PATCH frame applies `message[2]` as a patch at time `now`. */
  lemma PatchFrameIsPatch(env: Env, r: RoomState, frame: Bytes, now: int)
    requires Distinct(env.protocol)
    requires env.codec.decode(frame).Some? && HasProperties(env.codec.decode(frame).value)
    requires Index(env.codec.decode(frame).value, 0) == Num(env.protocol.roomStatePatch)
    ensures OnMessage(env, r, frame, now) == Patch(env, r, Index(env.codec.decode(frame).value, 2), now)
  {
  }

  /** A LEAVE_ROOM frame behaves exactly like the application calling leave. */
  lemma LeaveFrameIsLeave(env: Env, r: RoomState, frame: Bytes, now: int)
    requires Distinct(env.protocol)
    requires env.codec.decode(frame).Some? && HasProperties(env.codec.decode(frame).value)
    requires Index(env.codec.decode(frame).value, 0) == Num(env.protocol.leaveRoom)
    ensures OnMessage(env, r, frame, now) == Leave(r)
  {
  }

  /** After a snapshot the stored baseline decodes back to the snapshot,
      which is also the exposed state, and exactly one Update event carries it. */
  lemma SnapshotBaselineRoundTrips(env: Env, r: RoomState, s: Value, currentTime: Value, elapsedTime: Value)
    requires Lawful(env.codec)
    requires Wire(s)
    ensures var r' := SetState(env, r, s, currentTime, elapsedTime);
            && env.codec.decode(r'.baseline.value) == Some(s)
            && r'.state == s
            && r'.log[|r.log|..] == [Emit(UpdateEvent(s))]
  {
  }

  /** A well-formed snapshot frame, one that carries a state element, leaves
      the baseline and the exposed state in agreement. */
  lemma SnapshotFrameSyncs(env: Env, r: RoomState, frame: Bytes, now: int)
    requires Lawful(env.codec)
    requires Distinct(env.protocol)
    requires env.codec.decode(frame).Some? && HasProperties(env.codec.decode(frame).value)
    requires Index(env.codec.decode(frame).value, 0) == Num(env.protocol.roomState)
    requires Index(env.codec.decode(frame).value, 2) != Undef
    ensures Synced(env, OnMessage(env, r, frame, now))
  {
  }

  /** A snapshot frame without a state element breaks the agreement: the
      room exposes `undefined`, but the codec has no encoding for it, so the
      baseline decodes to something else. */
  lemma ShortSnapshotUnsynced(env: Env, r: RoomState, frame: Bytes, now: int)
    requires Lawful(env.codec)
    requires Distinct(env.protocol)
    requires env.codec.decode(frame).Some? && HasProperties(env.codec.decode(frame).value)
    requires Index(env.codec.decode(frame).value, 0) == Num(env.protocol.roomState)
    requires Index(env.codec.decode(frame).value, 2) == Undef
    ensures OnMessage(env, r, frame, now).state == Undef
    ensures !Synced(env, OnMessage(env, r, frame, now))
  {
    var r' := OnMessage(env, r, frame, now);
    assert env.codec.decode(r'.baseline.value).Some? ==> Wire(env.codec.decode(r'.baseline.value).value);
  }

  /** Ingesting the same snapshot twice leaves the same state, baseline,
      remote clock and local clock as ingesting it once; only the log
      differs, by a second Update event. */
  lemma SnapshotIsIdempotent(env: Env, r: RoomState, s: Value, currentTime: Value, elapsedTime: Value)
    ensures var once := SetState(env, r, s, currentTime, elapsedTime);
            var twice := SetState(env, once, s, currentTime, elapsedTime);
            && twice == once.(log := once.log + [Emit(UpdateEvent(s))])
  {
  }

  /** The remote clock moves only when both reported times are truthy; a
      time of 0, null or a missing element leaves both fields as they were. */
  lemma RemoteClockNeedsBothTimes(env: Env, r: RoomState, s: Value, currentTime: Value, elapsedTime: Value)
    ensures SetState(env, r, s, currentTime, elapsedTime).remoteClock != r.remoteClock ==>
              Truthy(currentTime) && Truthy(elapsedTime)
    ensures SetState(env, r, s, Num(0), elapsedTime).remoteClock == r.remoteClock
    ensures SetState(env, r, s, currentTime, Num(0)).remoteClock == r.remoteClock
  {
  }

  /** The first patch a room ever receives records its arrival time but
      leaves the ping unset. */
  lemma FirstPatchLeavesPingUnset(env: Env, name: string, remote: RemoteClock, delta: Value, now: int)
    ensures var r := Patch(env, NewRoom(name, remote), delta, now);
            r.ping == None && r.lastPatchTime == Some(now)
  {
  }

  /** A second patch measures the interval since the first one, which is not
      negative when the wall clock does not run backwards; a first patch
      stamped at time 0 is indistinguishable from no patch. */
  lemma SecondPatchMeasuresInterval(env: Env, r: RoomState, d1: Value, t1: int, d2: Value, t2: int)
    requires r.lastPatchTime == None
    ensures t1 != 0 ==> Patch(env, Patch(env, r, d1, t1), d2, t2).ping == Some(t2 - t1)
    ensures t1 != 0 && t1 <= t2 ==> Patch(env, Patch(env, r, d1, t1), d2, t2).ping.value >= 0
    ensures t1 == 0 ==> Patch(env, Patch(env, r, d1, t1), d2, t2).ping == r.ping
  {
  }

  /** A patch that applies and decodes leaves the baseline as the patched
      bytes and the exposed state as their decoding, and announces that state. */
  lemma PatchInstallsDecodedBaseline(env: Env, r: RoomState, delta: Value, now: int, bytes: Bytes, v: Value)
    requires env.delta.apply(r.baseline, delta) == Some(bytes)
    requires env.codec.decode(bytes) == Some(v)
    ensures var r' := Patch(env, r, delta, now);
            && r'.baseline == Some(bytes) && r'.state == v
            && r'.log == r.log + [Emit(UpdateEvent(v))]
            && Synced(env, r')
            && r'.remoteClock == r.remoteClock && r'.id == r.id
  {
  }

  /** Leave issues a transport close exactly when the id is truthy (and a
      transport is bound); with a null or zero id the room is untouched. */
  lemma LeaveClosesIffIdSet(r: RoomState)
    requires r.connected
    ensures Close in Leave(r).log[|r.log|..] <==> IdIsSet(r.id)
    ensures IdIsSet(r.id) ==> Leave(r).log[|r.log|..] == [Close]
    ensures !IdIsSet(r.id) ==> Leave(r) == r
    ensures Leave(r) == r.(log := Leave(r).log)
  {
  }

  /** Sending on an open transport writes exactly one frame and nothing
      else; on a closed one it writes no frame and warns once. */
  lemma SendWritesIffOpen(env: Env, r: RoomState, data: Value, isOpen: bool)
    requires r.connected
    ensures var out := Send(env, r, data, isOpen).log[|r.log|..];
            && |out| == 1
            && (out[0].SendFrame? <==> isOpen)
            && (out[0].Warn? <==> !isOpen)
            && (isOpen ==> out[0].frame == Arr([Num(env.protocol.roomData), IdValue(r.id), data]))
  {
  }

  /** While the teardown is still subscribed, a close signal empties all five
      signals and the state container, and raises exactly one Leave event. */
  lemma CloseTearsDownListeners(r: RoomState)
    requires Teardown in r.listeners.onLeave
    ensures OnClose(r).listeners.Empty()
    ensures forall ch :: OnClose(r).listeners.Of(ch) == {}
    ensures OnClose(r).log[|r.log|..] == [Emit(LeaveEvent)]
  {
  }
}

=== FILE: session.dfy ===
/** Runs of a room over a sequence of inputs: the transport's callbacks (which
    only reach the room once a transport is bound), inbound frames stamped
    with their arrival time, and the application's calls. */
module Session {
  import opened Wrappers
  import opened Values
  import opened Collaborators
  import opened Room

  datatype Input =
    | Bind                                  // connect(transport)
    | TransportOpen
    | TransportClose
    | Frame(bytes: Bytes, now: int)
    | CallLeave
    | CallSend(data: Value, isOpen: bool)
    | AddListener(channel: Channel, handle: nat)         // the application subscribes a callback

  function Step(env: Env, r: RoomState, i: Input): RoomState {
    match i
    case Bind => Connect(r)
    case TransportOpen => if r.connected then OnOpen(r) else r
    case TransportClose => if r.connected then OnClose(r) else r
    case Frame(bytes, now) => if r.connected then OnMessage(env, r, bytes, now) else r
    case CallLeave => Leave(r)
    case CallSend(data, isOpen) => Send(env, r, data, isOpen)
    case AddListener(ch, handle) => Subscribe(r, ch, App(handle))
  }

  function Run(env: Env, r: RoomState, ins: seq<Input>): RoomState
    decreases |ins|
  {
    if |ins| == 0 then r else Run(env, Step(env, r, ins[0]), ins[1..])
  }

  /** Number of Leave events in a log. */
  function LeaveEvents(log: seq<Output>): nat {
    if |log| == 0 then 0
    else LeaveEvents(log[..|log| - 1]) + (if log[|log| - 1] == Emit(LeaveEvent) then 1 else 0)
  }

  /** Number of close signals among the inputs. */
  function CloseSignals(ins: seq<Input>): nat {
    if |ins| == 0 then 0 else (if ins[0] == TransportClose then 1 else 0) + CloseSignals(ins[1..])
  }

  /** No exception escaped after the first `from` outputs of the log. */
  predicate NoFaultsAfter(log: seq<Output>, from: nat) {
    forall k :: from <= k < |log| ==> !log[k].Raise?
  }

  /** A frame the session can keep its baseline in sync with: if it decodes to
      a snapshot, the snapshot carries a state element. */
  predicate WellFormedFrame(env: Env, bytes: Bytes) {
    match env.codec.decode(bytes)
    case None => true
    case Some(m) => HasProperties(m) ==> (Classify(env.protocol, Index(m, 0)) == StateKind ==> Index(m, 2) != Undef)
  }

  /** `r'` is `r` with at most one output appended, none of them a Leave
      event, and a bound transport still bound. */
  predicate QuietStep(r: RoomState, r': RoomState) {
    && (r.connected ==> r'.connected)
    && (|| r'.log == r.log
        || (|r'.log| == |r.log| + 1 && r'.log[..|r.log|] == r.log && r'.log[|r.log|] != Emit(LeaveEvent)))
  }

  lemma LeaveEventsAppend(log: seq<Output>, out: Output)
    ensures LeaveEvents(log + [out]) == LeaveEvents(log) + (if out == Emit(LeaveEvent) then 1 else 0)
  {
  }

  lemma QuietStepKeepsLeaveEvents(r: RoomState, r': RoomState)
    requires QuietStep(r, r')
    ensures r.log <= r'.log && |r'.log| <= |r.log| + 1
    ensures LeaveEvents(r'.log) == LeaveEvents(r.log)
  {
  }

  /** An inbound frame never raises a Leave event: at most it asks the
      transport to close, and the Leave event waits for the close signal. */
  lemma MessageIsQuiet(env: Env, r: RoomState, bytes: Bytes, now: int)
    ensures QuietStep(r, OnMessage(env, r, bytes, now))
  {
    match env.codec.decode(bytes)
    case None =>
    case Some(m) =>
      if HasProperties(m) {
        match Classify(env.protocol, Index(m, 0))
        case PatchKind =>
          var p := Patch(env, r, Index(m, 2), now);
          assert p.log[|p.log| - 1] != Emit(LeaveEvent);
        case _ =>
      }
  }

  /** One step appends at most one output, and a Leave event exactly when a
      close signal reaches a bound transport; it never unbinds the transport. */
  lemma StepAppendsOneOutput(env: Env, r: RoomState, i: Input)
    ensures var r' := Step(env, r, i);
            && r.log <= r'.log
            && |r'.log| <= |r.log| + 1
            && (r.connected ==> r'.connected)
            && LeaveEvents(r'.log) == LeaveEvents(r.log) + (if i == TransportClose && r.connected then 1 else 0)
  {
    var r' := Step(env, r, i);
    match i
    case TransportClose =>
      if r.connected {
        LeaveEventsAppend(r.log, Emit(LeaveEvent));
      }
    case Bind =>
      assert QuietStep(r, r');
      QuietStepKeepsLeaveEvents(r, r');
    case Frame(bytes, now) =>
      if r.connected {
        MessageIsQuiet(env, r, bytes, now);
      }
      QuietStepKeepsLeaveEvents(r, r');
    case _ =>
      assert QuietStep(r, r');
      QuietStepKeepsLeaveEvents(r, r');
  }

  /** The log only grows along a run and a bound transport stays bound. */
  lemma {:induction false} RunExtendsLog(env: Env, r: RoomState, ins: seq<Input>)
    ensures r.log <= Run(env, r, ins).log
    ensures r.connected ==> Run(env, r, ins).connected
    decreases |ins|
  {
    if |ins| > 0 {
      StepAppendsOneOutput(env, r, ins[0]);
      RunExtendsLog(env, Step(env, r, ins[0]), ins[1..]);
    }
  }

  /** Once a transport is bound, every close signal raises exactly one Leave
      event and nothing else does, whoever initiated the close. */
  lemma {:induction false} LeaveEventsCountCloseSignals(env: Env, r: RoomState, ins: seq<Input>)
    requires r.connected
    ensures LeaveEvents(Run(env, r, ins).log) == LeaveEvents(r.log) + CloseSignals(ins)
    decreases |ins|
  {
    if |ins| > 0 {
      StepAppendsOneOutput(env, r, ins[0]);
      LeaveEventsCountCloseSignals(env, Step(env, r, ins[0]), ins[1..]);
    }
  }

  /** Until a close signal arrives, nothing unsubscribes the teardown from the
      Leave signal. */
  lemma {:induction false} TeardownStaysSubscribed(env: Env, r: RoomState, ins: seq<Input>)
    requires Teardown in r.listeners.onLeave
    requires TransportClose !in ins
    ensures Teardown in Run(env, r, ins).listeners.onLeave
    decreases |ins|
  {
    if |ins| > 0 {
      var r' := Step(env, r, ins[0]);
      assert ins[0] != TransportClose;
      assert Teardown in r'.listeners.onLeave;
      assert TransportClose !in ins[1..] by { assert forall j :: 0 <= j < |ins| - 1 ==> ins[1..][j] == ins[j + 1]; }
      TeardownStaysSubscribed(env, r', ins[1..]);
    }
  }

  /** The teardown subscribed at construction does its job: the first close
      signal a room receives leaves every signal and the state container
      without subscribers, whatever happened before. */
  lemma FirstCloseEmptiesListeners(env: Env, name: string, remote: RemoteClock, ins: seq<Input>)
    requires TransportClose !in ins
    ensures var r := Run(env, NewRoom(name, remote), ins);
            r.connected ==> Step(env, r, TransportClose).listeners.Empty()
  {
    TeardownStaysSubscribed(env, NewRoom(name, remote), ins);
  }

  /** If the baseline agrees with the exposed state, it still agrees after any
      run of well-formed frames and calls that lets no exception escape,
      whatever escaped before the run. */
  lemma {:induction false} RunKeepsSynced(env: Env, r: RoomState, ins: seq<Input>)
    requires Lawful(env.codec)
    requires Synced(env, r)
    requires forall k :: 0 <= k < |ins| && ins[k].Frame? ==> WellFormedFrame(env, ins[k].bytes)
    requires NoFaultsAfter(Run(env, r, ins).log, |r.log|)
    ensures Synced(env, Run(env, r, ins))
    decreases |ins|
  {
    if |ins| > 0 {
      var r' := Step(env, r, ins[0]);
      StepAppendsOneOutput(env, r, ins[0]);
      RunExtendsLog(env, r', ins[1..]);
      assert NoFaultsAfter(r'.log, |r.log|);
      StepKeepsSynced(env, r, ins[0]);
      assert forall k :: 0 <= k < |ins| - 1 ==> ins[1..][k] == ins[k + 1];
      RunKeepsSynced(env, r', ins[1..]);
    }
  }

  lemma StepKeepsSynced(env: Env, r: RoomState, i: Input)
    requires Lawful(env.codec)
    requires Synced(env, r)
    requires i.Frame? ==> WellFormedFrame(env, i.bytes)
    requires NoFaultsAfter(Step(env, r, i).log, |r.log|)
    ensures Synced(env, Step(env, r, i))
  {
  }

  /** A patch together with its arrival time. */
  datatype Arrival = Arrival(delta: Value, at: int)

  /** Patches applied one after another, as consecutive patch frames do. */
  function ApplyPatches(env: Env, r: RoomState, ps: seq<Arrival>): RoomState
    decreases |ps|
  {
    if |ps| == 0 then r else ApplyPatches(env, Patch(env, r, ps[0].delta, ps[0].at), ps[1..])
  }

  /** No number of patches moves the remote clock, the id, the transport
      binding or the subscribers. */
  lemma {:induction false} PatchesKeepRemoteClockAndId(env: Env, r: RoomState, ps: seq<Arrival>)
    ensures var r' := ApplyPatches(env, r, ps);
            && r'.remoteClock == r.remoteClock && r'.id == r.id
            && r'.connected == r.connected && r'.listeners == r.listeners
    decreases |ps|
  {
    if |ps| > 0 {
      PatchesKeepRemoteClockAndId(env, Patch(env, r, ps[0].delta, ps[0].at), ps[1..]);
    }
  }

  /** The Update events announcing each of a sequence of states, in order. */
  function UpdatesFor(states: seq<Value>): seq<Output>
    decreases |states|
  {
    if |states| == 0 then [] else [Emit(UpdateEvent(states[0]))] + UpdatesFor(states[1..])
  }

  /** Each patch turns the encoding of one snapshot into the encoding of the next. */
  ghost predicate PatchesChain(env: Env, ps: seq<Arrival>, snaps: seq<Value>) {
    && |snaps| == |ps| + 1
    && (forall k :: 0 <= k < |snaps| ==> Wire(snaps[k]))
    && (forall k :: 0 <= k < |ps| ==>
          env.delta.apply(Some(env.codec.encode(snaps[k])), ps[k].delta) == Some(env.codec.encode(snaps[k + 1])))
  }

  lemma PatchesChainTail(env: Env, ps: seq<Arrival>, snaps: seq<Value>)
    requires PatchesChain(env, ps, snaps) && |ps| > 0
    ensures PatchesChain(env, ps[1..], snaps[1..])
  {
  }

  /** One link of the chain: a patch computed against the stored encoding of
      one snapshot installs the next snapshot and announces it. */
  lemma PatchAlongChain(env: Env, r: RoomState, a: Arrival, next: Value)
    requires Lawful(env.codec)
    requires Wire(next)
    requires r.baseline.Some? && env.delta.apply(r.baseline, a.delta) == Some(env.codec.encode(next))
    ensures var r' := Patch(env, r, a.delta, a.at);
            r'.state == next && r'.baseline == Some(env.codec.encode(next)) && r'.log == r.log + [Emit(UpdateEvent(next))]
  {
  }

  /** Patches generated against successive encoded snapshots, starting from a
      room that holds the first one, end with the last snapshot as state and
      its encoding as baseline, with one Update event per patch carrying each
      intermediate snapshot in order. */
  lemma {:induction false} PatchChainReachesSnapshot(env: Env, r: RoomState, ps: seq<Arrival>, snaps: seq<Value>)
    requires Lawful(env.codec)
    requires PatchesChain(env, ps, snaps)
    requires r.state == snaps[0] && r.baseline == Some(env.codec.encode(snaps[0]))
    ensures var r' := ApplyPatches(env, r, ps);
            && r'.state == snaps[|ps|]
            && r'.baseline == Some(env.codec.encode(snaps[|ps|]))
            && r'.log == r.log + UpdatesFor(snaps[1..])
    decreases |ps|
  {
    if |ps| > 0 {
      PatchAlongChain(env, r, ps[0], snaps[1]);
      var r1 := Patch(env, r, ps[0].delta, ps[0].at);
      PatchesChainTail(env, ps, snaps);
      PatchChainReachesSnapshot(env, r1, ps[1..], snaps[1..]);
      assert ApplyPatches(env, r, ps) == ApplyPatches(env, r1, ps[1..]);
      assert snaps[1..][1..] == snaps[2..];
      assert UpdatesFor(snaps[1..]) == [Emit(UpdateEvent(snaps[1]))] + UpdatesFor(snaps[2..]);
    }
  }

  /** Following the patches reaches the same exposed state and baseline as
      ingesting the last snapshot directly. */
  lemma PatchChainMatchesDirectSnapshot(env: Env, r: RoomState, ps: seq<Arrival>, snaps: seq<Value>, currentTime: Value, elapsedTime: Value)
    requires Lawful(env.codec)
    requires PatchesChain(env, ps, snaps)
    requires r.state == snaps[0] && r.baseline == Some(env.codec.encode(snaps[0]))
    ensures var direct := SetState(env, r, snaps[|ps|], currentTime, elapsedTime);
            ApplyPatches(env, r, ps).state == direct.state && ApplyPatches(env, r, ps).baseline == direct.baseline
  {
    PatchChainReachesSnapshot(env, r, ps, snaps);
  }

  /** Applying one more patch after a run of patches is patching the run's result. */
  lemma {:induction false} ApplyPatchesSnoc(env: Env, r: RoomState, ps: seq<Arrival>, a: Arrival)
    ensures ApplyPatches(env, r, ps + [a]) == Patch(env, ApplyPatches(env, r, ps), a.delta, a.at)
    decreases |ps|
  {
    if |ps| == 0 {
      assert ([] + [a])[1..] == [];
    } else {
      assert (ps + [a])[0] == ps[0] && (ps + [a])[1..] == ps[1..] + [a];
      ApplyPatchesSnoc(env, Patch(env, r, ps[0].delta, ps[0].at), ps[1..], a);
    }
  }

  /** After any run of patches ending in arrivals `a` then `b`, the ping is
      the interval between those two when `a` was not stamped at time 0, and
      `b`'s time is kept as the reference for the next patch. */
  lemma PingIsLastInterval(env: Env, r: RoomState, ps: seq<Arrival>, a: Arrival, b: Arrival)
    ensures var r' := ApplyPatches(env, r, ps + [a] + [b]);
            && (a.at != 0 ==> r'.ping == Some(b.at - a.at))
            && r'.lastPatchTime == Some(b.at)
  {
    ApplyPatchesSnoc(env, r, ps, a);
    ApplyPatchesSnoc(env, r, ps + [a], b);
    var q := Patch(env, ApplyPatches(env, r, ps), a.delta, a.at);
    assert q.lastPatchTime == Some(a.at);
    assert ApplyPatches(env, r, ps + [a] + [b]) == Patch(env, q, b.delta, b.at);
  }
}

=== FILE: values.dfy ===
/** Structured values as the session sees them after the message codec has
    decoded a frame, together with the JavaScript reading rules the session
    relies on: indexing into a decoded message and truthiness tests. */
module Values {

  newtype byte = x: int | 0 <= x < 256

  type Bytes = seq<byte>

  /** A decoded value. `Undef` is JavaScript's `undefined`: the codec never
      produces it, but reading an element past the end of a decoded message
      does. Numbers are modelled as integers. */
  datatype Value =
    | Undef
    | Nil
    | Bool(b: bool)
    | Num(n: int)
    | Str(s: string)
    | Bin(bytes: Bytes)
    | Arr(items: seq<Value>)
    | Obj(fields: seq<Field>)

  /** One key/value entry of a map, in enumeration order. */
  datatype Field = Field(key: string, val: Value)

  /** A value the codec can produce, which is a value JavaScript can hold:
      no `undefined` anywhere inside it, and every map laid out as a
      JavaScript object lays out its own properties (`ObjectLayout`). */
  predicate Wire(v: Value) {
    match v
    case Undef => false
    case Arr(items) => forall i :: 0 <= i < |items| ==> Wire(items[i])
    case Obj(fields) => ObjectLayout(fields) && forall i :: 0 <= i < |fields| ==> Wire(fields[i].val)
    case _ => true
  }

  /** A JavaScript array index used as a property key: the decimal spelling,
      without a leading zero, of a number below 2^32 - 1. */
  predicate IndexKey(k: string) {
    && |k| > 0
    && (forall i :: 0 <= i < |k| ==> '0' <= k[i] <= '9')
    && (|k| > 1 ==> k[0] != '0')
    && DecimalValue(k) < 0xFFFF_FFFF
  }

  /** The order in which a JavaScript object enumerates its own properties:
      each key once, array-index keys first and in ascending numeric order,
      then the other keys (in insertion order, which the sequence records). */
  predicate ObjectLayout(fields: seq<Field>) {
    forall i, j :: 0 <= i < j < |fields| ==>
      && fields[i].key != fields[j].key
      && (IndexKey(fields[j].key) ==> IndexKey(fields[i].key) && DecimalValue(fields[i].key) < DecimalValue(fields[j].key))
  }

  /** JavaScript truthiness: `undefined`, `null`, `false`, `0` and the empty
      string are falsy; every object, array and buffer is truthy. */
  predicate Truthy(v: Value) {
    match v
    case Undef => false
    case Nil => false
    case Bool(b) => b
    case Num(n) => n != 0
    case Str(s) => s != ""
    case _ => true
  }

  /** The number a string of decimal digits spells. */
  function DecimalValue(s: string): nat {
    if |s| == 0 then 0
    else
      var d := s[|s| - 1] as int - 48;
      DecimalValue(s[..|s| - 1]) * 10 + (if 0 <= d then d else 0)
  }

  /** The decimal spelling of `n`, which is how JavaScript turns an array
      index into a property key when it indexes a plain object: digits only,
      no leading zero, and spelling `n` back. */
  function DecimalKey(n: nat): (s: string)
    ensures |s| > 0
    ensures forall i :: 0 <= i < |s| ==> '0' <= s[i] <= '9'
    ensures |s| > 1 ==> s[0] != '0'
    ensures DecimalValue(s) == n
  {
    var digit := (48 + n % 10) as char;
    if n < 10 then [digit]
    else
      var prefix := DecimalKey(n / 10);
      assert (prefix + [digit])[..|prefix|] == prefix;
      prefix + [digit]
  }

  /** Entry i binds `key` and no later entry does. */
  predicate LastBinding(fields: seq<Field>, key: string, i: int) {
    0 <= i < |fields| && fields[i].key == key && forall j :: i < j < |fields| ==> fields[j].key != key
  }

  /** The position of the last entry binding `key`, or -1 when none does. */
  function LastBindingIndex(fields: seq<Field>, key: string): (i: int)
    ensures i == -1 || LastBinding(fields, key, i)
    ensures i == -1 <==> forall j :: 0 <= j < |fields| ==> fields[j].key != key
    decreases |fields|
  {
    if |fields| == 0 then -1
    else if fields[|fields| - 1].key == key then |fields| - 1
    else LastBindingIndex(fields[..|fields| - 1], key)
  }

  /** Property lookup on a map. On a sequence that repeats a key, which no
      JavaScript object does, the later entry wins, as it does when a decoder
      assigns entries in wire order. */
  function Lookup(fields: seq<Field>, key: string): (v: Value)
    ensures forall i :: LastBinding(fields, key, i) ==> v == fields[i].val
    ensures (forall i :: 0 <= i < |fields| ==> fields[i].key != key) ==> v == Undef
  {
    var i := LastBindingIndex(fields, key);
    if i == -1 then Undef else fields[i].val
  }

  /** JavaScript can read a property of the value: every value except
      `null` and `undefined`, on which a property read throws. */
  predicate HasProperties(v: Value) {
    v != Nil && v != Undef
  }

  /** `message[i]` in JavaScript, on a value that has properties: the i-th
      element of an array, the i-th byte of a buffer, the i-th character of a
      string, the property named by the decimal spelling of i on an object,
      and `undefined` on a boolean or a number. */
  function Index(v: Value, i: nat): (r: Value)
    requires HasProperties(v)
    ensures v.Arr? ==> (i < |v.items| ==> r == v.items[i]) && (i >= |v.items| ==> r == Undef)
    ensures v.Obj? ==> r == Lookup(v.fields, DecimalKey(i))
    ensures v.Bool? || v.Num? ==> r == Undef
    ensures Wire(v) ==> r == Undef || Wire(r)
    ensures v.Obj? && Wire(v) ==>
      forall j :: 0 <= j < |v.fields| && v.fields[j].key == DecimalKey(i) ==> r == v.fields[j].val
  {
    match v
    case Arr(items) => if i < |items| then items[i] else Undef
    case Bin(bytes) => if i < |bytes| then Num(bytes[i] as int) else Undef
    case Str(s) => if i < |s| then Str([s[i]]) else Undef
    case Obj(fields) =>
      // Names the entry Lookup reads, so that its Wire-ness carries over.
      var k := LastBindingIndex(fields, DecimalKey(i));
      assert k != -1 ==> LastBinding(fields, DecimalKey(i), k);
      Lookup(fields, DecimalKey(i))
    case _ => Undef
  }
}

=== FILE: wrappers.dfy ===
/** The optional value used for fields the session leaves unset (`null` or
    `undefined` in JavaScript) and for collaborators that may fail. */
module Wrappers {

  datatype Option<+T> = None | Some(value: T)
}
